=== FILE: README.md ===
# c-class teaching programs, modelled in Dafny

This project models the logic of a set of small C teaching programs and proves
properties of the model. Each module follows one C file.

- `BinaryDumpLoad` (with `Int32` for the int and byte types) — the Fibonacci
  store of `part-3-files/binary_dump_load.c`. `dump` writes the count N as one
  int, then the N ints. `load` reads the count, then that many ints.
  `make_fibonacci` fills an array with 1, 1, a[i-1] + a[i-2]. `main` loads on
  `y`/`Y`; otherwise it rejects a non-positive N, then generates and dumps.
  The codec is a pure function between `seq<int32>` and bytes. Each int is 4
  bytes. The C code uses host byte order; the model fixes it to
  little-endian. The global `N` becomes the count that `Decode` returns.
- `BinConverter` — `bin4_to_int` and `int_to_bin4` of
  `part-2-bitwise/bin_converter.c`, on 32-bit patterns (`bv32`).
- `OneByte` — `fits_in_1B` of `part-2-bitwise/one_byte.c`. `x & 0xff` is the
  low byte of the two's-complement pattern, `Unsigned(x) % 256`.
- `Leds` — the LED register of `part-2-bitwise/leds.c`. It covers how the
  register is composed from P, O and G, and the 32-cell display of
  `print_leds`.
- `Filter` — the matching rule of `part-3-files/filter.c`: exclusions, green
  flags, great/good grading, numbering from 1, and the caps of 20 matches out
  of 200 records. The text fields are the characters of the UTF-8 bytes the
  C buffers hold: `strcmp` and `strstr` agree on either view, and `strlen`
  is modelled as the UTF-8 byte count.
- `Matrix` — `malloc_2000` / `free_2000` of `part-1-basics/malloc2000.c`.
- `CVsPy` — `while_vs_do_while` (as the values each loop prints) and
  `switch_operation` of `part-1/c-vs-py.c`.
- `Macros` — the `CHECK_FAIL` / `MAKE_FLAG` age check of `keyboard/macros.c`.
- `Treasure` — pass-by-value and pass-by-pointer in
  `part-1-basics/treasure.c`. An int variable is a heap cell and a pointer
  is a reference to it, so a callee without a `modifies` clause provably
  leaves the caller's variables alone.
- `Arrays` — the init loop, the print loop and the alias read of
  `part-1/arrays.c`.
- `Results` — the shared `Option` / `Result` types.

The Fibonacci store has no error handling. `load` trusts the file it reads,
`malloc` is never checked, and signed overflow in the generator is undefined
behaviour. A decodable record is therefore a precondition (`WellFormed`), not
an error path. Generation that feeds a dump is limited to N ≤ 46, the
largest N whose numbers fit in an int.

## Model

| member | source | states |
|---|---|---|
| `Int32.EncodeWord` | part-3-files/binary_dump_load.c:14 | one int is written as exactly 4 bytes |
| `Int32.DecodeWord` | part-3-files/binary_dump_load.c:25 | the int read is the one whose unsigned pattern is the little-endian value of the first 4 bytes |
| `Int32.DecodeEncodeWord` | part-3-files/binary_dump_load.c:14-25 | reading back a written int restores it, negative values included |
| `Int32.EncodeDecodeWord` | part-3-files/binary_dump_load.c:14-25 | writing an int that was read reproduces the 4 bytes it came from |
| `BinaryDumpLoad.EncodeElements` | part-3-files/binary_dump_load.c:16 | the array is written as exactly 4 bytes per element |
| `BinaryDumpLoad.Encode` | part-3-files/binary_dump_load.c:10-19 | a dump is 4 + 4N bytes, and its first word reads back as N |
| `BinaryDumpLoad.RecordLayout` | part-3-files/binary_dump_load.c:13-16 | the record is N in bytes 0..3, then element i in bytes 4+4i..7+4i, and nothing else |
| `BinaryDumpLoad.DecodeElements` | part-3-files/binary_dump_load.c:27-29 | reading N ints yields exactly N values |
| `BinaryDumpLoad.Decode` | part-3-files/binary_dump_load.c:21-33 | load sets N to the first word of the file and yields exactly N values; N is non-negative and the bytes read lie within the file |
| `BinaryDumpLoad.LoadAfterDump` | part-3-files/binary_dump_load.c:10-33 | loading a dump restores the same N and the same elements in order, whatever follows the record |
| `BinaryDumpLoad.DumpAfterLoad` | part-3-files/binary_dump_load.c:10-33 | dumping what was loaded rewrites exactly the bytes of the record that was read |
| `BinaryDumpLoad.FibFitsInt32` | part-3-files/binary_dump_load.c:51 | for N ≤ 46 no sum in the recurrence exceeds the int range |
| `BinaryDumpLoad.FibSequence` | part-3-files/binary_dump_load.c:43-54 | the first n Fibonacci numbers as ints: n values, value i is Fib(i) |
| `BinaryDumpLoad.MakeFibonacci` | part-3-files/binary_dump_load.c:43-54 | N values with a[0] = 1; exactly [1] for N = 1; a[1] = 1 and a[i] = a[i-1] + a[i-2] for N ≥ 2; every value is Fib(i), so for N ≤ 46 the array is exactly the sequence a generating run dumps |
| `BinaryDumpLoad.FibSequenceTen` | part-3-files/binary_dump_load.c:43-54 | the first ten numbers generated are 1 1 2 3 5 8 13 21 34 55 |
| `BinaryDumpLoad.WantsLoad` | part-3-files/binary_dump_load.c:63 | the run loads exactly on 'y' or 'Y'; any other answer, the default N included, generates |
| `BinaryDumpLoad.Run` | part-3-files/binary_dump_load.c:56-80 | the run fails exactly when the user does not load and N ≤ 0, before anything is generated or dumped; a generating run prints the N Fibonacci numbers and leaves their encoding as the file; a loading run leaves the file alone and prints values whose encoding is a prefix of it |
| `BinaryDumpLoad.GenerateThenLoad` | part-3-files/binary_dump_load.c:56-80 | a generating run followed by a loading run on the file it wrote prints the same numbers |
| `BinConverter.Bin4ToInt` | part-2-bitwise/bin_converter.c:6-15 | the four shift-and-OR rounds equal bin[0]<<3 \| bin[1]<<2 \| bin[2]<<1 \| bin[3], so bin[0] is the most significant bit |
| `BinConverter.Bin4ToIntValue` | part-2-bitwise/bin_converter.c:6-15 | for 0/1 cells the result is 8·b0 + 4·b1 + 2·b2 + b3, which is below 16 |
| `BinConverter.IntToBin4` | part-2-bitwise/bin_converter.c:19-28 | exactly four cells, each 0 or 1; cell i holds bit 3-i of the value |
| `BinConverter.IntToBinToInt` | part-2-bitwise/bin_converter.c:6-28 | converting a value to bits and back keeps its low 4 bits, so 0..15 come back unchanged |
| `BinConverter.BinToIntToBin` | part-2-bitwise/bin_converter.c:6-28 | converting a 0/1 vector to an int and back restores the vector |
| `BinConverter.ConverterDemo` | part-2-bitwise/bin_converter.c:30-47 | the run in main: 1101 gives 13, and 13 gives 1101 |
| `OneByte.LowByte` | part-2-bitwise/one_byte.c:6 | `x & 0xff` lies in 0..255 and agrees with x's pattern modulo 256 |
| `OneByte.FitsIn1B` | part-2-bitwise/one_byte.c:4-8 | the test holds exactly for 0 ≤ x ≤ 255, so it fails for every negative x |
| `OneByte.FitsInSignedByteRange` | part-2-bitwise/one_byte.c:4-14 | the corrected test holds exactly for -128 ≤ x ≤ 127 |
| `OneByte.OneByteDemo` | part-2-bitwise/one_byte.c:10-14 | main's cases: 42 fits, 481516 does not, and -42 does not, despite its [y] label. The corrected test accepts -42. At the boundary 255 fits and 256 does not |
| `Leds.Compose` | part-2-bitwise/leds.c:39-47 | with shifts of 9+2 and 8+2, a 9-bit P, an 8-bit O and a 7-bit G land in bits 21..29, 10..17 and 0..6; bits 7..9, 18..20 and 30..31 stay zero |
| `Leds.RegisterLayout` | part-2-bitwise/leds.c:8-51 | the register `main` builds from P, O and G holds 365, 219 and 109 in those slots, is 765684845, and leaves bit 31 clear, so it is non-negative |
| `Leds.Led` | part-2-bitwise/leds.c:27 | each LED shown is 0 or 1 |
| `Leds.Display` | part-2-bitwise/leds.c:23-35 | the display has exactly 32 cells, each 0 or 1 |
| `Leds.DisplayCell` | part-2-bitwise/leds.c:26-27 | display cell i is 1 exactly when the one-bit mask 1 << (31-i) finds its bit set in the register, and 0 exactly when it does not: the leftmost cell is the sign bit |
| `Leds.LedMask` | part-2-bitwise/leds.c:27 | shifting bit 31-i down and masking with 1 reads the same bit a one-bit mask tests |
| `Leds.DisplayPrefix` | part-2-bitwise/leds.c:26-27 | the first n cells read as a binary number are the top n bits of the register |
| `Leds.DisplayFaithful` | part-2-bitwise/leds.c:23-35 | the 32 cells read back as a binary number give the register, so the display loses nothing |
| `Leds.RegisterPicture` | part-2-bitwise/leds.c:49-51 | every LED of the register matches the picture recorded under main |
| `Leds.FrameLine` | part-2-bitwise/leds.c:16-21 | the frame is a corner, 34 dashes and a corner |
| `Filter.Excluded` | part-3-files/filter.c:20-25 | the four exclusions: the name Charles, the state New Hampshire, the status Married, or an age under 18 |
| `Filter.Contains` | part-3-files/filter.c:35 | `strstr` as a scan from the front of the string |
| `Filter.ContainsOccurs` | part-3-files/filter.c:35 | the scan finds the pattern exactly when some position of the string starts a copy of it |
| `Filter.ByteLength` | part-3-files/filter.c:39-41 | `strlen` of a field is its UTF-8 byte count, from one to four bytes per character |
| `Filter.ByteLengthAscii` | part-3-files/filter.c:39-41 | `strlen` equals the character count exactly when the text is ASCII |
| `Filter.ByteLengthDemo` | part-3-files/filter.c:39-41 | a five-character name with two accented letters is 7 bytes to `strlen`, so its length test differs from a character count |
| `Filter.GreenFlags` | part-3-files/filter.c:17-60 | the flag total never exceeds 6 |
| `Filter.FlagsByCriterion` | part-3-files/filter.c:26-60 | the score is one flag each for Divorced/Widowed, "ed"/"Ed" in the name, a last-name byte length divisible by 5, 4 or 3, and prison_time ≥ 3; plus 2 points for Florida or Texas, 1 for Utah, California or Ohio, 0 otherwise; the age rule never counts |
| `Filter.Grading` | part-3-files/filter.c:19-68 | a record is great exactly when it is not excluded and has more than 3 flags, good exactly when not excluded with 3, and unreported otherwise; Charles, New Hampshire, Married and age < 18 are never reported |
| `Filter.Matches` | part-3-files/filter.c:16-68 | at most one match per record |
| `Filter.MatchesNumbered` | part-3-files/filter.c:12-68 | matches are numbered consecutively from 1, as `cnt` counts them |
| `Filter.MatchesSound` | part-3-files/filter.c:19-68 | every match is a record graded as printed, and every gradable record is matched |
| `Filter.Report` | part-3-files/filter.c:12-72 | at most 20 matches, numbered 1, 2, ... in order, each with the grade its flags earn |
| `Filter.FilterCandidates` | part-3-files/filter.c:12-72 | the loop prints exactly the matches among the first 200 records, cut off after the 20th |
| `Filter.Examine` | part-3-files/filter.c:17-68 | one pass of the loop body adds exactly the next record's match, if it has one, and advances `cnt` by at most one |
| `Matrix.Malloc2000` | part-1-basics/malloc2000.c:7-13 | a fresh index of N rows, each a fresh block of M ints, no two rows shared; no cell value is promised |
| `Matrix.Free2000` | part-1-basics/malloc2000.c:15-20 | rows 0..N-1 are released in order, then the index; with distinct rows no block is released twice |
| `Matrix.AllocateThenFree` | part-1-basics/malloc2000.c:7-20 | the matrix allocated is a fresh index of N fresh rows of M ints; freeing it releases exactly its rows in order and then its index, N + 1 blocks, each once |
| `CVsPy.Halve` | part-1/c-vs-py.c:12 | `param /= 2` truncates toward zero, for negative values too |
| `CVsPy.HalveNegative` | part-1/c-vs-py.c:19 | -5 halves to -2 in C, where Euclidean division gives -3 |
| `CVsPy.WhileTrace` | part-1/c-vs-py.c:10-13 | the values the while loop prints, in order |
| `CVsPy.WhileEnd` | part-1/c-vs-py.c:10-14 | the while loop ends with param ≤ 22 |
| `CVsPy.WhileTraceShape` | part-1/c-vs-py.c:10-14 | the while loop prints nothing exactly when param ≤ 22; otherwise it starts at param, prints only values above 22, and halves from each printed value to the next and to the final one |
| `CVsPy.WhileVsDoWhile` | part-1/c-vs-py.c:7-23 | the do-while prints at least once, starting with param; for param > 22 both loops print the same values and end equal; for param ≤ 22 the while prints nothing and the do-while prints param once |
| `CVsPy.Operate` | part-1/c-vs-py.c:33-47 | the menu answers exactly for + - * / %, and asks again for any other character |
| `CVsPy.OperateValues` | part-1/c-vs-py.c:33-43 | the answers are 22, 22 (the '-' case adds, as written), 57, 6 and 1 |
| `CVsPy.Operators` | part-1/c-vs-py.c:32 | `scanf(" %c")` delivers the input's characters with every blank and newline skipped, in order |
| `CVsPy.OperatorsSingle` | part-1/c-vs-py.c:32 | a single character reaches the switch exactly when it is not a blank |
| `CVsPy.OperatorsAppend` | part-1/c-vs-py.c:32 | the characters delivered from two consecutive stretches of input are those of the first followed by those of the second, so every non-blank character is kept in input order |
| `CVsPy.OperatorsBytes` | part-1/c-vs-py.c:26-32 | the two UTF-8 bytes of a typed 'é' are two separate reads, so a '+' after it is the third character delivered |
| `CVsPy.OperatorsDemo` | part-1/c-vs-py.c:32 | a space before '+' is skipped, and the newlines after typed characters never reach the switch |
| `CVsPy.SwitchOperation` | part-1/c-vs-py.c:25-48 | the answer is that of the first known operator among the non-blank bytes of stdin; each earlier non-blank byte costs one more prompt round, and blanks cost none |
| `Macros.ClassifyAge` | keyboard/macros.c:5-26 | a negative age, and only that, exits with failure; age 0 passes; both flags start at 0; under 18 raises only the underage flag, over 51 only the other, never both; the message is printed exactly for ages below 18 or above 51 |
| `Treasure.FindTreasure` | part-1-basics/treasure.c:7-9 | the finder prints the pointee, and having no licence to write, leaves every variable as it was |
| `Treasure.StealTreasure` | part-1-basics/treasure.c:11-14 | the callee prints 0, and with only a copy of the value it cannot change the caller's variable |
| `Treasure.StealTreasureFr` | part-1-basics/treasure.c:15-18 | writing through the pointer zeroes the pointee, prints 0, and may change nothing else |
| `Treasure.TreasureStory` | part-1-basics/treasure.c:20-31 | main: the finder, reading through the alias, sees 42; after the copy thief the treasure is still 42; after the pointer thief it is 0 |
| `Arrays.ArraysDemo` | part-1/arrays.c:7-26 | 10 cells with digits[i] = i; the print loop visits them in index order; the alias reads digits[2], which is 2 |

## Left out

- File-descriptor I/O in `binary_dump_load.c` is left out: `open`, `write`, `read`, `close`, the permission bits and the y/N prompt. Only the byte codec is modelled. Every return value is ignored, so the code has no error cases to model.
- BinaryDumpLoad.Decode: requires a well-formed record (non-negative count, enough bytes). On a short or corrupt file the C code reads uninitialised memory, or, for a negative count, `N*sizeof(int)` converts to a huge `size_t` request; that behaviour is not modelled.
- BinaryDumpLoad.Run: requires N ≤ 46 when it generates. Larger N overflows an int in `make_fibonacci`, which is undefined behaviour in C, so no wrap-around is modelled. `MakeFibonacci` itself uses unbounded ints.
- Host byte order and the width of `int` are fixed to little-endian and 32 bits.
- `print_fibonacci` output is recorded as the printed values, not as text.
- Allocation failure is left out: `malloc` is never checked in `malloc2000.c` or `binary_dump_load.c`. `free` has no Dafny counterpart; `Free2000` returns the order of release instead.
- Filter.FilterCandidates: the `fscanf` parsing (fields of at most 31 bytes, longer text cut there) and all printing are left out. Records arrive already split. When the file holds fewer than 200 lines the model stops at the last record; the C loop would keep running with the previous record's fields still in its buffers.
- CVsPy.SwitchOperation: stdin is modelled as a finite sequence in which each element is one byte (value below 256), since `%c` reads a single `char`; a character outside ASCII must be given as its UTF-8 bytes, and the model does not restrict its input to values below 256. When no known operator appears, the model returns None where the C loop would prompt forever; it also does not model end of input, where `scanf` fails and the loop repeats with the old character.
- `main` of `c-vs-py.c` is left out: the argument-count check, `atoi` and the printed text.
- Treasure: variables are heap cells and pointers are references; addresses as numbers and their printing are not modelled.
- Terminal formatting is left out: ANSI colours, the shade characters of `print_leds` (shown as 0/1 cells) and other decoration.
- `part-3-files/scanf-ing.c`, `part-3-files/student.c` and `part-1-basics/pointers.c` are not part of this model. They show `scanf` buffer behaviour, floating point, string-library calls and platform-dependent `sizeof`/address printing, with no logic to prove.
- The right shift of a negative value in `int_to_bin4` is implementation-defined. The model uses a logical shift. The loop shifts four times, but only the original value and its first three shifts are read, and only their lowest bit; bits 0..3 of the value are the same under either kind of shift.

## Findings

| source | as written | input that shows it | evidently intended | confidence | as-written member | corrected member |
|---|---|---|---|---|---|---|
| part-2-bitwise/one_byte.c:4-14 | `fits_in_1B` compares `x & 0xff` with `x`, so every negative int fails | -42: main labels it [y], but the test answers n | accept values that survive as one signed byte, -128..127: sign-extending the low byte gives x back | medium, not executed; the FIXME on line 4 confirms the defect; the exact intended range is inferred from main's three labels | `OneByte.FitsIn1B` | `OneByte.FitsInSignedByteRange` |

=== FILE: arrays.dfy ===
/**
 * The array demo of part-1/arrays.c: fill ten digits, print them, and read
 * the third one through a second name for the same array.
 */
module Arrays {

  /** The array length. */
  const N: nat := 10

  /**
   * `main`: the init loop sets digits[i] = i, the print loop visits the
   * cells in order, and `also_digits` names the same array, so
   * `*(also_digits + 2)` reads digits[2].
   */
  method ArraysDemo() returns (digits: array<int>, printed: seq<int>, third: int)
    ensures digits.Length == N
    ensures forall i :: 0 <= i < N ==> digits[i] == i
    ensures printed == digits[..]
    ensures |printed| == N && forall i :: 0 <= i < N ==> printed[i] == i
    ensures third == digits[2] == 2
  {
    digits := new int[N];
    var i := 0;
    while i < N
      invariant 0 <= i <= N
      invariant forall j :: 0 <= j < i ==> digits[j] == j
    {
      digits[i] := i;
      i := i + 1;
    }
    printed := [];
    i := 0;
    while i < N
      invariant 0 <= i <= N
      invariant printed == digits[..i]
    {
      printed := printed + [digits[i]];
      i := i + 1;
    }
    var alsoDigits := digits;
    third := alsoDigits[2];
  }
}

=== FILE: bin_converter.dfy ===
/**
 * The 4-bit converters of part-2-bitwise/bin_converter.c, on the bit
 * patterns of C ints. bin[0] is the most significant bit.
 */
module BinConverter {

  /** Every cell holds 0 or 1. */
  predicate IsBits(bin: seq<bv32>)
  {
    forall i :: 0 <= i < |bin| ==> bin[i] == 0 || bin[i] == 1
  }

  /** The loop of `bin4_to_int` after `i` rounds: shift left, OR in bin[i-1]. */
  function ShiftIn(bin: seq<bv32>, i: nat): bv32
    requires i <= |bin|
  {
    if i == 0 then 0 else (ShiftIn(bin, i - 1) << 1) | bin[i - 1]
  }

  /**
   * `bin4_to_int`: four shift-and-OR rounds over bin[0..3]. For a 0/1
   * vector this is the binary number b0 b1 b2 b3.
   */
  function Bin4ToInt(bin: seq<bv32>): (r: bv32)
    requires |bin| >= 4
    ensures r == (bin[0] << 3) | (bin[1] << 2) | (bin[2] << 1) | bin[3]
  {
    var r1 := ShiftIn(bin, 1);
    var r2 := ShiftIn(bin, 2);
    var r3 := ShiftIn(bin, 3);
    assert ShiftIn(bin, 0) == 0;
    assert r1 == bin[0];
    assert r2 == (bin[0] << 1) | bin[1];
    assert r3 == (((bin[0] << 1) | bin[1]) << 1) | bin[2];
    ShiftIn(bin, 4)
  }

  /** For a 0/1 vector the result is the binary number b0 b1 b2 b3, so it is below 16. */
  lemma Bin4ToIntValue(bin: seq<bv32>)
    requires |bin| >= 4 && IsBits(bin[..4])
    ensures Bin4ToInt(bin) == 8 * bin[0] + 4 * bin[1] + 2 * bin[2] + bin[3]
    ensures Bin4ToInt(bin) < 16
  {
    assert bin[..4][0] == bin[0] && bin[..4][1] == bin[1];
    assert bin[..4][2] == bin[2] && bin[..4][3] == bin[3];
    BitsValue(bin[0], bin[1], bin[2], bin[3]);
  }

  lemma BitsValue(b0: bv32, b1: bv32, b2: bv32, b3: bv32)
    requires b0 <= 1 && b1 <= 1 && b2 <= 1 && b3 <= 1
    ensures (b0 << 3) | (b1 << 2) | (b2 << 1) | b3 == 8 * b0 + 4 * b1 + 2 * b2 + b3
    ensures 8 * b0 + 4 * b1 + 2 * b2 + b3 < 16
  {
  }

  /**
   * The loop of `int_to_bin4` from index `i` down to 0: cell i gets the low
   * bit of `value`, then `value` is shifted right by one.
   */
  function Unpack(value: bv32, i: nat): (bin: seq<bv32>)
    ensures |bin| == i
  {
    if i == 0 then [] else Unpack(value >> 1, i - 1) + [value & 1]
  }

  /**
   * `int_to_bin4`: the four cells it writes, bin[0..3]. Only bits 0..3 of
   * `value` are ever read, and those are the same under an arithmetic or a
   * logical right shift, so a negative `value` needs no separate case.
   */
  function IntToBin4(value: bv32): (bin: seq<bv32>)
    ensures |bin| == 4 && IsBits(bin)
    ensures bin == [(value >> 3) & 1, (value >> 2) & 1, (value >> 1) & 1, value & 1]
  {
    UnpackFour(value);
    Unpack(value, 4)
  }

  /** The four rounds of `int_to_bin4`, written out cell by cell. */
  lemma UnpackFour(value: bv32)
    ensures Unpack(value, 4) == [(value >> 3) & 1, (value >> 2) & 1, (value >> 1) & 1, value & 1]
  {
    assert Unpack(value >> 3, 1) == [(value >> 3) & 1];
    assert Unpack(value >> 2, 2) == [(value >> 3) & 1, (value >> 2) & 1] by {
      assert (value >> 2) >> 1 == value >> 3;
    }
    assert Unpack(value >> 1, 3) == [(value >> 3) & 1, (value >> 2) & 1, (value >> 1) & 1] by {
      assert (value >> 1) >> 1 == value >> 2;
    }
  }

  /** Converting a number and back keeps its low 4 bits, so 0..15 survive unchanged. */
  lemma IntToBinToInt(value: bv32)
    ensures Bin4ToInt(IntToBin4(value)) == value & 15
    ensures value < 16 ==> Bin4ToInt(IntToBin4(value)) == value
  {
    var bin := IntToBin4(value);
    assert bin == [(value >> 3) & 1, (value >> 2) & 1, (value >> 1) & 1, value & 1];
  }

  /** Converting a 0/1 vector and back restores it. */
  lemma BinToIntToBin(bin: seq<bv32>)
    requires |bin| == 4 && IsBits(bin)
    ensures IntToBin4(Bin4ToInt(bin)) == bin
  {
    assert bin[..4] == bin;
    var r := Bin4ToInt(bin);
    var back := IntToBin4(r);
    assert bin[0] == 0 || bin[0] == 1;
    assert bin[1] == 0 || bin[1] == 1;
    assert bin[2] == 0 || bin[2] == 1;
    assert bin[3] == 0 || bin[3] == 1;
    assert back[0] == bin[0] && back[1] == bin[1] && back[2] == bin[2] && back[3] == bin[3];
  }

  /** The run in `main`: 1101 converts to 13, and 13 converts back to 1101. */
  lemma ConverterDemo()
    ensures Bin4ToInt([1, 1, 0, 1]) == 13
    ensures IntToBin4(13) == [1, 1, 0, 1]
  {
    BinToIntToBin([1, 1, 0, 1]);
  }
}

=== FILE: binary_dump_load.dfy ===
/**
 * The Fibonacci store of part-3-files/binary_dump_load.c: a record is the
 * element count N as one int followed by the N ints, each int as 4 bytes in
 * host order (fixed here to little-endian), with nothing before, between or
 * after them. `dump` and `load` are modelled as a pure byte codec; the global
 * N of the source becomes the count that `Decode` returns.
 */
module BinaryDumpLoad {
  import opened Int32
  import opened Results

  /** The largest N for which every generated number fits in an int. */
  const MaxFibCount: int := 46

  /** The payload bytes `dump` writes after the count. */
  function EncodeElements(xs: seq<int32>): (b: seq<byte>)
    ensures |b| == 4 * |xs|
  {
    if xs == [] then [] else EncodeWord(xs[0]) + EncodeElements(xs[1..])
  }

  /** The whole record `dump` writes: the count, then the payload. */
  function Encode(xs: seq<int32>): (b: seq<byte>)
    requires |xs| <= MaxInt32
    ensures |b| == 4 + 4 * |xs|
    ensures DecodeWord(b) == |xs|
  {
    DecodeEncodeWord(|xs|);
    EncodeWord(|xs|) + EncodeElements(xs)
  }

  /** The payload holds the i-th element at bytes 4i..4i+3. */
  lemma {:induction false} EncodeElementsAt(xs: seq<int32>, i: int)
    requires 0 <= i < |xs|
    ensures EncodeElements(xs)[4 * i..4 * i + 4] == EncodeWord(xs[i])
  {
    var e := EncodeElements(xs);
    assert e == EncodeWord(xs[0]) + EncodeElements(xs[1..]);
    if i > 0 {
      EncodeElementsAt(xs[1..], i - 1);
      assert e[4 * i..4 * i + 4] == EncodeElements(xs[1..])[4 * (i - 1)..4 * (i - 1) + 4];
    }
  }

  /**
   * The record layout: the count in bytes 0..3, element i in bytes
   * 4 + 4i .. 7 + 4i, and no other bytes.
   */
  lemma RecordLayout(xs: seq<int32>)
    requires |xs| <= MaxInt32
    ensures |Encode(xs)| == 4 + 4 * |xs|
    ensures Encode(xs)[..4] == EncodeWord(|xs|)
    ensures forall i :: 0 <= i < |xs| ==> Encode(xs)[4 + 4 * i..8 + 4 * i] == EncodeWord(xs[i])
  {
    var b := Encode(xs);
    assert b[..4] == EncodeWord(|xs|);
    forall i | 0 <= i < |xs|
      ensures b[4 + 4 * i..8 + 4 * i] == EncodeWord(xs[i])
    {
      EncodeElementsAt(xs, i);
      assert b[4 + 4 * i..8 + 4 * i] == EncodeElements(xs)[4 * i..4 * i + 4];
    }
  }

  /** The `n` ints `load` reads from the front of `b`. */
  function DecodeElements(b: seq<byte>, n: nat): (xs: seq<int32>)
    requires |b| >= 4 * n
    ensures |xs| == n
  {
    if n == 0 then [] else [DecodeWord(b)] + DecodeElements(b[4..], n - 1)
  }

  /**
   * The bytes `load` can read without running off the end: a non-negative
   * count and at least that many ints after it. The source checks none of
   * this; on other input it reads uninitialised memory, and a negative
   * count turns `N*sizeof(int)` into a huge `size_t` request.
   */
  predicate WellFormed(b: seq<byte>)
  {
    |b| >= 4 && DecodeWord(b) >= 0 && |b| >= 4 + 4 * DecodeWord(b)
  }

  /** What `load` yields: the count it stored in N and the array it filled. */
  datatype Loaded = Loaded(count: int32, values: seq<int32>)

  /** `load`: the count first, then exactly that many ints; later bytes are never read. */
  function Decode(b: seq<byte>): (r: Loaded)
    requires WellFormed(b)
    ensures r.count == DecodeWord(b)
    ensures r.count >= 0 && |r.values| == r.count
    ensures 4 + 4 * r.count <= |b|
  {
    var n := DecodeWord(b);
    Loaded(n, DecodeElements(b[4..], n))
  }

  /** The first 4 bytes of a concatenation decide the word read from it. */
  lemma DecodeWordPrefix(w: seq<byte>, rest: seq<byte>)
    requires |w| == 4
    ensures DecodeWord(w + rest) == DecodeWord(w)
  {
    assert (w + rest)[..4] == w;
  }

  lemma {:induction false} DecodeEncodeElements(xs: seq<int32>, rest: seq<byte>)
    ensures DecodeElements(EncodeElements(xs) + rest, |xs|) == xs
  {
    if xs != [] {
      var w := EncodeWord(xs[0]);
      var tail := EncodeElements(xs[1..]);
      assert EncodeElements(xs) + rest == w + (tail + rest);
      DecodeWordPrefix(w, tail + rest);
      DecodeEncodeWord(xs[0]);
      assert (w + (tail + rest))[4..] == tail + rest;
      DecodeEncodeElements(xs[1..], rest);
    }
  }

  lemma {:induction false} EncodeDecodeElements(b: seq<byte>, n: nat)
    requires |b| >= 4 * n
    ensures EncodeElements(DecodeElements(b, n)) == b[..4 * n]
  {
    if n > 0 {
      var xs := DecodeElements(b, n);
      assert xs[0] == DecodeWord(b) && xs[1..] == DecodeElements(b[4..], n - 1);
      EncodeDecodeWord(b);
      EncodeDecodeElements(b[4..], n - 1);
      assert b[..4 * n] == b[..4] + b[4..][..4 * (n - 1)];
    }
  }

  /**
   * Loading what `dump` wrote restores the count and every element in
   * order, whatever the file holds after the record.
   */
  lemma {:induction false} LoadAfterDump(xs: seq<int32>, trailing: seq<byte>)
    requires |xs| <= MaxInt32
    ensures WellFormed(Encode(xs) + trailing)
    ensures Decode(Encode(xs) + trailing) == Loaded(|xs|, xs)
  {
    var w := EncodeWord(|xs|);
    var b := Encode(xs) + trailing;
    assert b == w + (EncodeElements(xs) + trailing);
    DecodeWordPrefix(w, EncodeElements(xs) + trailing);
    DecodeEncodeWord(|xs|);
    assert b[4..] == EncodeElements(xs) + trailing;
    DecodeEncodeElements(xs, trailing);
  }

  /** Dumping what `load` read rewrites exactly the bytes of the record it read. */
  lemma {:induction false} DumpAfterLoad(b: seq<byte>)
    requires WellFormed(b)
    ensures Encode(Decode(b).values) == b[..4 + 4 * Decode(b).count]
  {
    var r := Decode(b);
    EncodeDecodeWord(b);
    EncodeDecodeElements(b[4..], r.count);
    assert b[..4 + 4 * r.count] == b[..4] + b[4..][..4 * r.count];
  }

  /** The sequence `make_fibonacci` computes, by its defining recurrence. */
  function Fib(i: nat): nat
  {
    if i < 2 then 1 else Fib(i - 1) + Fib(i - 2)
  }

  lemma {:induction false} FibMonotone(i: nat, j: nat)
    requires i <= j
    ensures Fib(i) <= Fib(j)
    decreases j
  {
    if i < j {
      FibMonotone(i, j - 1);
      assert Fib(j - 1) <= Fib(j);
    }
  }

  /** The last number that fits, computed one step of the recurrence at a time. */
  lemma FibAt45()
    ensures Fib(45) == 1836311903
  {
    assert Fib(2) == 2;
    assert Fib(3) == 3;
    assert Fib(4) == 5;
    assert Fib(5) == 8;
    assert Fib(6) == 13;
    assert Fib(7) == 21;
    assert Fib(8) == 34;
    assert Fib(9) == 55;
    assert Fib(10) == 89;
    assert Fib(11) == 144;
    assert Fib(12) == 233;
    assert Fib(13) == 377;
    assert Fib(14) == 610;
    assert Fib(15) == 987;
    assert Fib(16) == 1597;
    assert Fib(17) == 2584;
    assert Fib(18) == 4181;
    assert Fib(19) == 6765;
    assert Fib(20) == 10946;
    assert Fib(21) == 17711;
    assert Fib(22) == 28657;
    assert Fib(23) == 46368;
    assert Fib(24) == 75025;
    assert Fib(25) == 121393;
    assert Fib(26) == 196418;
    assert Fib(27) == 317811;
    assert Fib(28) == 514229;
    assert Fib(29) == 832040;
    assert Fib(30) == 1346269;
    assert Fib(31) == 2178309;
    assert Fib(32) == 3524578;
    assert Fib(33) == 5702887;
    assert Fib(34) == 9227465;
    assert Fib(35) == 14930352;
    assert Fib(36) == 24157817;
    assert Fib(37) == 39088169;
    assert Fib(38) == 63245986;
    assert Fib(39) == 102334155;
    assert Fib(40) == 165580141;
    assert Fib(41) == 267914296;
    assert Fib(42) == 433494437;
    assert Fib(43) == 701408733;
    assert Fib(44) == 1134903170;
    assert Fib(45) == 1836311903;
  }

  /** Below `MaxFibCount` the recurrence never overflows an int. */
  lemma FibFitsInt32(i: nat)
    requires i < MaxFibCount
    ensures Fib(i) <= MaxInt32
  {
    FibMonotone(i, 45);
    FibAt45();
  }

  /** The first `n` numbers as the ints the program holds. */
  function FibSequence(n: nat): (a: seq<int32>)
    requires n <= MaxFibCount
    ensures |a| == n
    ensures forall i :: 0 <= i < n ==> a[i] == Fib(i)
  {
    seq(n, i requires 0 <= i < n => FibInt32(i))
  }

  function FibInt32(i: nat): (x: int32)
    requires i < MaxFibCount
    ensures x == Fib(i)
  {
    FibFitsInt32(i);
    Fib(i)
  }

  /** The documented run with N = 10 prints 1 1 2 3 5 8 13 21 34 55. */
  lemma FibSequenceTen()
    ensures FibSequence(10) == [1, 1, 2, 3, 5, 8, 13, 21, 34, 55]
  {
    var a := FibSequence(10);
    assert Fib(2) == 2 && Fib(3) == 3 && Fib(4) == 5 && Fib(5) == 8;
    assert Fib(6) == 13 && Fib(7) == 21 && Fib(8) == 34 && Fib(9) == 55;
    assert a[0] == 1 && a[1] == 1 && a[2] == 2 && a[3] == 3 && a[4] == 5;
    assert a[5] == 8 && a[6] == 13 && a[7] == 21 && a[8] == 34 && a[9] == 55;
  }

  /**
   * `make_fibonacci`: fills a fresh array of N ints with 1, 1 and then the
   * sum of the two previous entries. N >= 1 is guaranteed by the caller.
   */
  method MakeFibonacci(n: int) returns (a: seq<int>)
    requires n >= 1
    ensures |a| == n
    ensures a[0] == 1
    ensures n == 1 ==> a == [1]
    ensures n >= 2 ==> a[1] == 1
    ensures forall i :: 2 <= i < n ==> a[i] == a[i - 1] + a[i - 2]
    ensures forall i :: 0 <= i < n ==> a[i] == Fib(i)
    ensures n <= MaxFibCount ==> a == FibSequence(n)
  {
    var arr := new int[n];
    arr[0] := 1;
    if n == 1 {
      a := arr[..];
      assert a == [1];
      if n <= MaxFibCount {
        IsFibSequence(a);
      }
      return;
    }
    arr[1] := 1;
    var i := 2;
    while i < n
      invariant 2 <= i <= n
      invariant forall k :: 0 <= k < i ==> arr[k] == Fib(k)
    {
      assert Fib(i) == Fib(i - 1) + Fib(i - 2);
      arr[i] := arr[i - 1] + arr[i - 2];
      i := i + 1;
    }
    a := arr[..];
    FibRecurrence(a);
    if n <= MaxFibCount {
      IsFibSequence(a);
    }
  }

  /** A sequence of the first Fibonacci numbers obeys the recurrence `make_fibonacci` uses. */
  lemma FibRecurrence(a: seq<int>)
    requires forall i :: 0 <= i < |a| ==> a[i] == Fib(i)
    ensures forall i :: 2 <= i < |a| ==> a[i] == a[i - 1] + a[i - 2]
  {
    forall i | 2 <= i < |a|
      ensures a[i] == a[i - 1] + a[i - 2]
    {
      assert a[i] == Fib(i);
    }
  }

  /** Any sequence of the first Fibonacci numbers is the one `FibSequence` lists. */
  lemma IsFibSequence(a: seq<int>)
    requires |a| <= MaxFibCount
    requires forall i :: 0 <= i < |a| ==> a[i] == Fib(i)
    ensures a == FibSequence(|a|)
  {
  }

  /** What one run leaves behind: the numbers printed and the file's bytes. */
  datatype Session = Session(printed: seq<int32>, file: seq<byte>)

  datatype RunError = NotPositive

  predicate WantsLoad(choice: char)
  {
    choice == 'y' || choice == 'Y'
  }

  /**
   * `main`: on 'y' or 'Y' load the record from `file` and print it;
   * otherwise reject a non-positive N, generate N numbers, dump them over
   * the file and print them.
   */
  function Run(choice: char, n: int, file: seq<byte>): (r: Result<Session, RunError>)
    requires WantsLoad(choice) ==> WellFormed(file)
    requires !WantsLoad(choice) ==> n <= MaxFibCount
    ensures r.Failure? <==> !WantsLoad(choice) && n <= 0
    ensures r.Success? && !WantsLoad(choice) ==>
      |r.value.printed| == n && r.value.file == Encode(r.value.printed)
      && forall i :: 0 <= i < n ==> r.value.printed[i] == Fib(i)
    ensures r.Success? && WantsLoad(choice) ==>
      r.value.file == file && |r.value.printed| <= MaxInt32 && Encode(r.value.printed) <= file
  {
    if WantsLoad(choice) then
      var loaded := Decode(file);
      DumpAfterLoad(file);
      assert file[..4 + 4 * loaded.count] <= file;
      Success(Session(loaded.values, file))
    else if n <= 0 then
      Failure(NotPositive)
    else
      var fib := FibSequence(n);
      Success(Session(fib, Encode(fib)))
  }

  /** A generating run followed by a loading run prints the same numbers again. */
  lemma GenerateThenLoad(choice: char, n: int, file: seq<byte>, again: char)
    requires !WantsLoad(choice) && 1 <= n <= MaxFibCount
    requires WantsLoad(again)
    ensures Run(choice, n, file).Success?
    ensures WellFormed(Run(choice, n, file).value.file)
    ensures Run(again, 0, Run(choice, n, file).value.file).value.printed
         == Run(choice, n, file).value.printed
  {
    var fib := FibSequence(n);
    LoadAfterDump(fib, []);
    assert Encode(fib) + [] == Encode(fib);
  }
}

=== FILE: c_vs_py.dfy ===
/**
 * The loop and switch demos of part-1/c-vs-py.c: a while loop and a
 * do-while loop that halve a parameter while it exceeds 22, recorded as the
 * values they print, and the operator menu that computes 19 ? 3.
 */
module CVsPy {
  import opened Results

  /** The bound both loops test against. */
  const Limit: int := 22

  /** C's `x / 2` on ints: the quotient truncated toward zero. */
  function Halve(x: int): (h: int)
    ensures x >= 0 ==> 0 <= 2 * h <= x <= 2 * h + 1
    ensures x < 0 ==> 2 * h - 1 <= x <= 2 * h <= 0
  {
    if x >= 0 then x / 2 else -((-x) / 2)
  }

  /** Truncation differs from Dafny's Euclidean division on negative values. */
  lemma HalveNegative()
    ensures Halve(-5) == -2 && -5 / 2 == -3
  {
  }

  /** The values printed by `while (param > 22) { print; param /= 2; }`. */
  function WhileTrace(p: int): (t: seq<int>)
    decreases if p > Limit then p else 0
  {
    if p > Limit then [p] + WhileTrace(Halve(p)) else []
  }

  /** The value `param` holds when that loop ends. */
  function WhileEnd(p: int): (e: int)
    ensures e <= Limit
    decreases if p > Limit then p else 0
  {
    if p > Limit then WhileEnd(Halve(p)) else p
  }

  /**
   * The while trace starts at the parameter, prints only values above 22,
   * and halves from each printed value to the next and to the final value.
   */
  lemma {:induction false} WhileTraceShape(p: int)
    ensures |WhileTrace(p)| == 0 <==> p <= Limit
    ensures |WhileTrace(p)| > 0 ==> WhileTrace(p)[0] == p
    ensures forall i :: 0 <= i < |WhileTrace(p)| ==> WhileTrace(p)[i] > Limit
    ensures forall i :: 0 <= i < |WhileTrace(p)| - 1 ==>
      WhileTrace(p)[i + 1] == Halve(WhileTrace(p)[i])
    ensures |WhileTrace(p)| > 0 ==> WhileEnd(p) == Halve(WhileTrace(p)[|WhileTrace(p)| - 1])
    decreases if p > Limit then p else 0
  {
    if p > Limit {
      WhileTraceShape(Halve(p));
      var rest := WhileTrace(Halve(p));
      assert WhileTrace(p) == [p] + rest;
      forall i | 0 <= i < |WhileTrace(p)| - 1
        ensures WhileTrace(p)[i + 1] == Halve(WhileTrace(p)[i])
      {
        if i > 0 {
          assert WhileTrace(p)[i] == rest[i - 1];
        }
      }
    }
  }

  /**
   * `while_vs_do_while`: both loops run from `param`, and each returns what
   * it printed and where it stopped. Dafny has no do-while, so its first
   * pass is written out before the loop.
   */
  method WhileVsDoWhile(param: int)
    returns (whilePrinted: seq<int>, whileEnd: int, doPrinted: seq<int>, doEnd: int)
    ensures whilePrinted == WhileTrace(param) && whileEnd == WhileEnd(param)
    ensures whileEnd <= Limit && doEnd <= Limit
    ensures |doPrinted| >= 1 && doPrinted[0] == param
    ensures param > Limit ==> doPrinted == whilePrinted && doEnd == whileEnd
    ensures param <= Limit ==> whilePrinted == [] && doPrinted == [param] && doEnd == Halve(param)
  {
    var p := param;
    whilePrinted := [];
    while p > Limit
      invariant whilePrinted + WhileTrace(p) == WhileTrace(param)
      invariant WhileEnd(p) == WhileEnd(param)
      decreases p
    {
      whilePrinted := whilePrinted + [p];
      p := Halve(p);
    }
    whileEnd := p;
    assert whilePrinted + [] == whilePrinted;

    p := param;
    doPrinted := [p];
    p := Halve(p);
    while p > Limit
      invariant doPrinted + WhileTrace(p) == [param] + WhileTrace(Halve(param))
      invariant WhileEnd(p) == WhileEnd(Halve(param))
      decreases p
    {
      doPrinted := doPrinted + [p];
      p := Halve(p);
    }
    doEnd := p;
    assert doPrinted + [] == doPrinted;
  }

  /** The answer the menu gives for `op`, or None when it asks again. */
  function Operate(op: char): (r: Option<int>)
    ensures r.Some? <==> op in "+-*/%"
  {
    match op
    case '+' => Some(19 + 3)
    case '-' => Some(19 + 3)
    case '*' => Some(19 * 3)
    case '/' => Some(19 / 3)
    case '%' => Some(19 % 3)
    case _ => None
  }

  /**
   * The five answers. Division and remainder of positive ints agree between
   * C and Dafny; the '-' case computes 19+3 like '+'.
   */
  lemma OperateValues()
    ensures Operate('+') == Some(22) && Operate('-') == Some(22) && Operate('*') == Some(57)
    ensures Operate('/') == Some(6) && Operate('%') == Some(1)
    ensures Operate('-') == Operate('+')
  {
  }

  /** The characters `isspace` accepts, which the blank in `" %c"` skips. */
  predicate IsBlank(c: char)
  {
    c == ' ' || c == '\t' || c == '\n' || c == '\r' || c == '\U{0B}' || c == '\U{0C}'
  }

  /**
   * The characters `scanf(" %c")` delivers from `input`, one per call: the
   * input with its blanks skipped, in order.
   */
  function Operators(input: seq<char>): (ops: seq<char>)
    ensures |ops| <= |input|
    ensures forall i :: 0 <= i < |ops| ==> !IsBlank(ops[i])
  {
    if input == [] then []
    else
      var last := input[|input| - 1];
      Operators(input[..|input| - 1]) + if IsBlank(last) then [] else [last]
  }

  /** One character reaches the switch exactly when it is not a blank. */
  lemma OperatorsSingle(c: char)
    ensures Operators([c]) == if IsBlank(c) then [] else [c]
  {
    assert [c][..0] == [];
  }

  /**
   * Skipping blanks works piecewise: the operators of `a + b` are those of
   * `a` followed by those of `b`. With `OperatorsSingle` this pins down every
   * result: each non-blank character is kept, in input order.
   */
  lemma {:induction false} OperatorsAppend(a: seq<char>, b: seq<char>)
    ensures Operators(a + b) == Operators(a) + Operators(b)
    decreases |b|
  {
    if b == [] {
      assert a + b == a;
    } else {
      var last := b[|b| - 1];
      var init := b[..|b| - 1];
      assert (a + b)[..|a + b| - 1] == a + init;
      assert (a + b)[|a + b| - 1] == last;
      OperatorsAppend(a, init);
    }
  }

  /** The operators of a prefix of the input come first among those of the whole input. */
  lemma {:induction false} OperatorsPrefix(input: seq<char>, j: nat)
    requires j <= |input|
    ensures Operators(input[..j]) <= Operators(input)
    decreases |input|
  {
    if j < |input| {
      var shorter := input[..|input| - 1];
      assert input[..j] == shorter[..j];
      OperatorsPrefix(shorter, j);
    } else {
      assert input[..j] == input;
    }
  }

  /**
   * Blanks and newlines never reach the switch: a leading space before '+'
   * leaves '+' as the first operator, and an unknown '?' typed on its own
   * line is followed by '-' with the newlines gone.
   */
  lemma OperatorsDemo()
    ensures Operators(" +") == "+"
    ensures Operators("?\n-\n") == "?-"
  {
    assert Operators(" ") == [];
    assert Operators("?\n") == "?";
    assert "?\n-\n"[..3] == "?\n-";
    assert "?\n-"[..2] == "?\n";
    assert "?\n"[..1] == "?";
    assert Operators("?\n-") == "?-";
  }

  /**
   * A typed 'é' arrives as its two UTF-8 bytes C3 A9, each a non-blank read
   * of its own, so a '+' after it is the third operator.
   */
  lemma OperatorsBytes()
    ensures Operators([0xC3 as char, 0xA9 as char, '+']) == [0xC3 as char, 0xA9 as char, '+']
  {
    var e1, e2 := 0xC3 as char, 0xA9 as char;
    assert [e1, e2, '+'] == [e1] + ([e2] + ['+']);
    OperatorsAppend([e1], [e2] + ['+']);
    OperatorsAppend([e2], ['+']);
    OperatorsSingle(e1);
    OperatorsSingle(e2);
    OperatorsSingle('+');
  }

  /**
   * `switch_operation`: each round prompts, reads the next non-blank
   * character and returns its answer when it is a known operator. The
   * source prompts forever; on a finite input that never names a known
   * operator the model returns None. `rounds` counts the prompts answered.
   * Each element of `input` is one byte of stdin, since `%c` reads into a
   * `char`: a character outside ASCII is given as its UTF-8 bytes.
   */
  method SwitchOperation(input: seq<char>) returns (r: Option<int>, rounds: nat)
    ensures rounds <= |Operators(input)|
    ensures forall i :: 0 <= i < rounds - 1 ==> Operate(Operators(input)[i]).None?
    ensures r.Some? ==> rounds >= 1 && r == Operate(Operators(input)[rounds - 1])
    ensures r.None? ==> rounds == |Operators(input)|
    ensures r.None? ==> forall i :: 0 <= i < |Operators(input)| ==> Operate(Operators(input)[i]).None?
  {
    rounds := 0;
    var j := 0;
    while j < |input|
      invariant j <= |input|
      invariant rounds == |Operators(input[..j])|
      invariant forall i :: 0 <= i < rounds ==> Operate(Operators(input[..j])[i]).None?
    {
      var c := input[j];
      assert input[..j + 1][..j] == input[..j];
      j := j + 1;
      if !IsBlank(c) {
        rounds := rounds + 1;
        var answer := Operate(c);
        if answer.Some? {
          OperatorsPrefix(input, j);
          return answer, rounds;
        }
      }
    }
    assert input[..j] == input;
    r := None;
  }
}

=== FILE: filter.dfy ===
/**
 * The candidate filter of part-3-files/filter.c, over records that have
 * already been read: exclusion rules, green-flag scoring, the great/good
 * grading, and the report that numbers matches from 1 and stops at 20 of
 * at most 200 records.
 */
module Filter {
  import opened Results

  /**
   * One line of the candidates file, as `fscanf` splits it. The C fields
   * are byte buffers holding UTF-8 text; here they are the characters that
   * text encodes. UTF-8 is injective, and no byte of a multi-byte character
   * is an ASCII byte, so `strcmp` against a literal and `strstr` for "ed"
   * agree with the same tests on characters. Only `strlen` differs, and
   * `ByteLength` models it.
   */
  datatype Candidate = Candidate(
    name: string,
    lastName: string,
    age: int,
    maritalStatus: string,
    state: string,
    prisonTime: int)

  /** Records the loop examines at most. */
  const MaxRecords: nat := 200
  /** Matches after which the loop stops. */
  const MaxReported: nat := 20

  /** The candidates skipped before any flag is counted. */
  predicate Excluded(c: Candidate)
  {
    c.name == "Charles" || c.state == "New Hampshire" || c.maritalStatus == "Married" || c.age < 18
  }

  /** `strstr(s, t) != NULL`: `t` occurs somewhere in `s`. */
  predicate Contains(s: string, t: string)
    decreases |s|
  {
    t <= s || (|s| > 0 && Contains(s[1..], t))
  }

  /** `t` occurs in `s` starting at position i. */
  predicate OccursAt(s: string, t: string, i: nat)
  {
    i + |t| <= |s| && s[i..i + |t|] == t
  }

  /** The scan of `Contains` finds `t` exactly when some position of `s` starts a copy of it. */
  lemma {:induction false} ContainsOccurs(s: string, t: string)
    ensures Contains(s, t) <==> exists i: nat :: OccursAt(s, t, i)
    decreases |s|
  {
    if t <= s {
      assert s[0..|t|] == t;
      assert OccursAt(s, t, 0);
    }
    if |s| > 0 {
      ContainsOccurs(s[1..], t);
      if Contains(s[1..], t) {
        var i: nat :| OccursAt(s[1..], t, i);
        assert s[i + 1..i + 1 + |t|] == s[1..][i..i + |t|];
        assert OccursAt(s, t, i + 1);
      }
      if i: nat :| OccursAt(s, t, i) {
        if i > 0 {
          assert s[1..][i - 1..i - 1 + |t|] == s[i..i + |t|];
          assert OccursAt(s[1..], t, i - 1);
        } else {
          assert t <= s;
        }
      }
    } else if i: nat :| OccursAt(s, t, i) {
      assert t == [];
    }
  }

  /** The bytes UTF-8 spends on one character. */
  function Utf8Width(c: char): (w: nat)
    ensures 1 <= w <= 4
    ensures w == 1 <==> c as int < 0x80
  {
    if c as int < 0x80 then 1
    else if c as int < 0x800 then 2
    else if c as int < 0x1_0000 then 3
    else 4
  }

  /** `strlen` of a field: the bytes of its UTF-8 encoding, between one and four per character. */
  function ByteLength(s: string): (n: nat)
    ensures |s| <= n <= 4 * |s|
  {
    if s == [] then 0 else Utf8Width(s[0]) + ByteLength(s[1..])
  }

  /** For ASCII text, and only for it, `strlen` counts characters. */
  lemma {:induction false} ByteLengthAscii(s: string)
    ensures ByteLength(s) == |s| <==> forall i :: 0 <= i < |s| ==> s[i] as int < 0x80
  {
    if s != [] {
      ByteLengthAscii(s[1..]);
      assert forall i :: 1 <= i < |s| ==> s[1..][i - 1] == s[i];
    }
  }

  /** A last name of five characters, two of them accented, is seven bytes to `strlen`. */
  lemma ByteLengthDemo()
    ensures |"N\U{FA}\U{F1}ez"| == 5 && ByteLength("N\U{FA}\U{F1}ez") == 7
    ensures ByteLength("Smith") == 5
  {
    assert ByteLength("ez") == 2;
    assert ByteLength("\U{F1}ez") == 4;
    assert ByteLength("\U{FA}\U{F1}ez") == 6;
    assert ByteLength("mith") == 4;
  }

  function Flag(b: bool): nat
  {
    if b then 1 else 0
  }

  /** The seven tests of the loop body, one flag each. */
  function GreenFlags(c: Candidate): (n: nat)
    ensures n <= 6
  {
    Flag(c.age > 65 && c.age < 24)
    + Flag(c.maritalStatus == "Divorced" || c.maritalStatus == "Widowed")
    + Flag(Contains(c.name, "ed") || Contains(c.name, "Ed"))
    + Flag(ByteLength(c.lastName) % 5 == 0 || ByteLength(c.lastName) % 4 == 0 || ByteLength(c.lastName) % 3 == 0)
    + Flag(c.state == "Florida" || c.state == "Utah" || c.state == "California"
           || c.state == "Texas" || c.state == "Ohio")
    + Flag(c.state == "Florida" || c.state == "Texas")
    + Flag(c.prisonTime >= 3)
  }

  /** The points a state is worth. */
  function StatePoints(state: string): nat
  {
    if state in ["Florida", "Texas"] then 2
    else if state in ["Utah", "California", "Ohio"] then 1
    else 0
  }

  /**
   * The score as a table of independent criteria: the age test can never
   * hold, and the two state tests together give 2, 1 or 0 points.
   */
  lemma FlagsByCriterion(c: Candidate)
    ensures GreenFlags(c)
         == Flag(c.maritalStatus in ["Divorced", "Widowed"])
          + Flag(Contains(c.name, "ed") || Contains(c.name, "Ed"))
          + Flag(ByteLength(c.lastName) % 5 == 0 || ByteLength(c.lastName) % 4 == 0 || ByteLength(c.lastName) % 3 == 0)
          + StatePoints(c.state)
          + Flag(c.prisonTime >= 3)
  {
    assert !(c.age > 65 && c.age < 24);
  }

  datatype Grade = Great | Good

  /** How a record is reported, if at all: more than 3 flags is great, exactly 3 good. */
  function Grading(c: Candidate): (g: Option<Grade>)
    ensures g == Some(Great) <==> !Excluded(c) && GreenFlags(c) > 3
    ensures g == Some(Good) <==> !Excluded(c) && GreenFlags(c) == 3
    ensures g.None? <==> Excluded(c) || GreenFlags(c) < 3
  {
    if Excluded(c) then None
    else if GreenFlags(c) > 3 then Some(Great)
    else if GreenFlags(c) >= 3 then Some(Good)
    else None
  }

  /** One printed line: its running number, the record and its grade. */
  datatype Match = Match(number: nat, candidate: Candidate, grade: Grade)

  /** Every match of `records` in order, numbered from 1, with no cap. */
  function Matches(records: seq<Candidate>): (ms: seq<Match>)
    ensures |ms| <= |records|
  {
    if records == [] then []
    else
      var prev := Matches(records[..|records| - 1]);
      var c := records[|records| - 1];
      match Grading(c)
      case Some(g) => prev + [Match(|prev| + 1, c, g)]
      case None => prev
  }

  /** Matches are numbered consecutively from 1, in the order they are found. */
  lemma {:induction false} MatchesNumbered(records: seq<Candidate>)
    ensures forall i :: 0 <= i < |Matches(records)| ==> Matches(records)[i].number == i + 1
  {
    if records != [] {
      MatchesNumbered(records[..|records| - 1]);
    }
  }

  /** The matches of a shorter prefix come first among those of a longer one. */
  lemma {:induction false} MatchesPrefix(records: seq<Candidate>, j: nat)
    requires j <= |records|
    ensures Matches(records[..j]) <= Matches(records)
    decreases |records|
  {
    if j < |records| {
      var shorter := records[..|records| - 1];
      assert records[..j] == shorter[..j];
      MatchesPrefix(shorter, j);
    } else {
      assert records[..j] == records;
    }
  }

  /** A record is among the matches exactly when it is graded, and with that grade. */
  lemma {:induction false} MatchesSound(records: seq<Candidate>)
    ensures forall m :: m in Matches(records) ==>
      m.candidate in records && Grading(m.candidate) == Some(m.grade)
    ensures forall c :: c in records && Grading(c).Some? ==>
      exists m :: m in Matches(records) && m.candidate == c
  {
    if records != [] {
      var shorter := records[..|records| - 1];
      MatchesSound(shorter);
      var c := records[|records| - 1];
      assert records == shorter + [c];
      if Grading(c).Some? {
        assert Matches(records)[|Matches(records)| - 1].candidate == c;
      }
    }
  }

  /** The report: the matches among the first 200 records, cut off at 20. */
  function Report(records: seq<Candidate>): (report: seq<Match>)
    ensures |report| <= MaxReported
    ensures forall i :: 0 <= i < |report| ==> report[i].number == i + 1
    ensures forall i :: 0 <= i < |report| ==>
      Grading(report[i].candidate) == Some(report[i].grade)
  {
    var examined := if |records| <= MaxRecords then records else records[..MaxRecords];
    var all := Matches(examined);
    MatchesSound(examined);
    MatchesNumbered(examined);
    var report := if |all| <= MaxReported then all else all[..MaxReported];
    assert forall i :: 0 <= i < |report| ==> report[i] in all;
    report
  }

  /**
   * The loop of `main`: for k = 1..200 read a record, skip the excluded,
   * count flags, print a great or good match with the running number `cnt`,
   * and stop once `cnt` passes 20. A file shorter than 200 records ends
   * the loop early.
   */
  method FilterCandidates(records: seq<Candidate>) returns (report: seq<Match>)
    ensures report == Report(records)
  {
    var cnt := 1;
    report := [];
    var k := 1;
    while k <= MaxRecords && k <= |records|
      invariant 1 <= k <= MaxRecords + 1 && k <= |records| + 1
      invariant report == Matches(records[..k - 1])
      invariant cnt == |report| + 1 <= MaxReported
    {
      report, cnt := Examine(records, k, report, cnt);
      if cnt > MaxReported {
        CappedReport(records, k);
        return;
      }
      k := k + 1;
    }
    UncappedReport(records, k - 1);
  }

  /**
   * One pass of the loop body on record k: skip it when excluded, otherwise
   * count its flags and print it as a great or good match with number
   * `cnt`. Afterwards the report holds the matches of the first k records.
   */
  method Examine(records: seq<Candidate>, k: nat, report: seq<Match>, cnt: nat)
    returns (report': seq<Match>, cnt': nat)
    requires 1 <= k <= |records|
    requires report == Matches(records[..k - 1]) && cnt == |report| + 1
    ensures report' == Matches(records[..k]) && cnt' == |report'| + 1
    ensures cnt <= cnt' <= cnt + 1
  {
    var c := records[k - 1];
    MatchesStep(records, k);
    report', cnt' := report, cnt;
    if !Excluded(c) {
      var greenFlags := GreenFlags(c);
      if greenFlags > 3 {
        report' := report' + [Match(cnt', c, Great)];
        cnt' := cnt' + 1;
      } else if greenFlags >= 3 {
        report' := report' + [Match(cnt', c, Good)];
        cnt' := cnt' + 1;
      }
    }
  }

  /** Examining one more record appends its match, if it has one. */
  lemma MatchesStep(records: seq<Candidate>, k: nat)
    requires 1 <= k <= |records|
    ensures var prev := Matches(records[..k - 1]);
            var c := records[k - 1];
            Matches(records[..k])
              == if Grading(c).Some? then prev + [Match(|prev| + 1, c, Grading(c).value)] else prev
  {
    assert records[..k][..k - 1] == records[..k - 1];
  }

  /** When every record the loop may examine is done with fewer than 20 matches, they are the report. */
  lemma UncappedReport(records: seq<Candidate>, k: nat)
    requires k == MaxRecords || k == |records|
    requires k <= MaxRecords && k <= |records|
    requires |Matches(records[..k])| < MaxReported
    ensures Report(records) == Matches(records[..k])
  {
    assert records[..k] == if |records| <= MaxRecords then records else records[..MaxRecords];
  }

  /** Once 20 matches are found among the first k records, they are the report. */
  lemma CappedReport(records: seq<Candidate>, k: nat)
    requires k <= MaxRecords && k <= |records|
    requires |Matches(records[..k])| == MaxReported
    ensures Report(records) == Matches(records[..k])
  {
    var examined := if |records| <= MaxRecords then records else records[..MaxRecords];
    assert records[..k] == examined[..k];
    MatchesPrefix(examined, k);
  }
}

=== FILE: int32.dfy ===
/**
 * The C `int` of the modelled programs: a 32-bit two's-complement integer,
 * and its 4-byte little-endian image (the host byte order this model fixes).
 */
module Int32 {

  const MinInt32: int := -0x8000_0000
  const MaxInt32: int := 0x7FFF_FFFF
  const TwoTo32: int := 0x1_0000_0000

  type int32 = x: int | MinInt32 <= x <= MaxInt32
  type uint32 = x: int | 0 <= x < TwoTo32
  type byte = x: int | 0 <= x < 256

  /** The bit pattern of `x` read as an unsigned number. */
  function Unsigned(x: int32): (u: uint32)
    ensures x >= 0 ==> u == x
    ensures x < 0 ==> u - TwoTo32 == x
  {
    if x < 0 then x + TwoTo32 else x
  }

  /** The signed value of a 32-bit pattern: the inverse of `Unsigned`. */
  function Signed(u: uint32): (x: int32)
    ensures Unsigned(x) == u
  {
    if u <= MaxInt32 then u else u - TwoTo32
  }

  lemma SignedUnsigned(x: int32)
    ensures Signed(Unsigned(x)) == x
  {
  }

  /** The 4 bytes `write(fd, &x, sizeof(int))` emits, least significant first. */
  function EncodeWord(x: int32): (b: seq<byte>)
    ensures |b| == 4
  {
    var u0 := Unsigned(x);
    var u1 := u0 / 256;
    var u2 := u1 / 256;
    [u0 % 256, u1 % 256, u2 % 256, u2 / 256]
  }

  /** The int `read(fd, &x, sizeof(int))` stores from the first 4 bytes of `b`. */
  function DecodeWord(b: seq<byte>): (x: int32)
    requires |b| >= 4
    ensures Unsigned(x) == b[0] as int + 256 * b[1] as int + 65536 * b[2] as int + 16777216 * b[3] as int
  {
    Signed(b[0] as int + 256 * (b[1] as int + 256 * (b[2] as int + 256 * b[3] as int)))
  }

  /** Reading back a written word restores it. */
  lemma DecodeEncodeWord(x: int32)
    ensures DecodeWord(EncodeWord(x)) == x
  {
    var u0 := Unsigned(x);
    var u1 := u0 / 256;
    var u2 := u1 / 256;
    assert u0 == u0 % 256 + 256 * (u1 % 256 + 256 * (u2 % 256 + 256 * (u2 / 256)));
    SignedUnsigned(x);
  }

  /** Splitting `r + 256 * q` into its low byte and the rest. */
  lemma DivMod256(r: int, q: int)
    requires 0 <= r < 256
    ensures (r + 256 * q) / 256 == q && (r + 256 * q) % 256 == r
  {
  }

  /** Writing a read word reproduces the 4 bytes it was read from. */
  lemma EncodeDecodeWord(b: seq<byte>)
    requires |b| >= 4
    ensures EncodeWord(DecodeWord(b)) == b[..4]
  {
    var w: int := b[2] as int + 256 * b[3] as int;
    var v: int := b[1] as int + 256 * w;
    var u: int := b[0] as int + 256 * v;
    assert Unsigned(DecodeWord(b)) == u;
    DivMod256(b[0], v);
    DivMod256(b[1], w);
    DivMod256(b[2], b[3]);
  }
}

=== FILE: leds.dfy ===
/**
 * The simulated LED register of part-2-bitwise/leds.c: the letters P, O and
 * G as bit groups packed into one int, and the 32-cell display that shows
 * it most significant bit first.
 */
module Leds {
  import BinConverter

  const P: bv32 := 365   // 101101101
  const O: bv32 := 219   // 11011011
  const G: bv32 := 109   // 1101101

  /** The shift after each letter: its width plus two spacer bits. */
  const LenP: nat := 9 + 2
  const LenO: nat := 8 + 2

  /** Cells of the display: the number of bits in an int. */
  const IntBits: nat := 32

  /** Bits 7..9, 18..20, 30 and 31: the ones no letter occupies. */
  const SpacerMask: bv32 := 0xC01C_0380

  /**
   * `main`: OR in p, shift, OR in o, shift, OR in g. Letters narrow enough
   * for their slot land in disjoint bit ranges: g in bits 0..6, o in bits
   * 10..17, p in bits 21..29, zeros elsewhere.
   */
  function Compose(p: bv32, o: bv32, g: bv32): (r: bv32)
    ensures p < 512 && o < 256 && g < 128 ==>
      r & 0x7F == g && (r >> 10) & 0xFF == o && (r >> 21) & 0x1FF == p && r & SpacerMask == 0
  {
    ((((0 | p) << LenP) | o) << LenO) | g
  }

  /** The register `main` builds and displays. */
  const Register: bv32 := Compose(P, O, G)

  /** The register holds P, O and G in their slots and never sets bit 31. */
  lemma RegisterLayout()
    ensures Register & 0x7F == G && (Register >> 10) & 0xFF == O && (Register >> 21) & 0x1FF == P
    ensures Register & SpacerMask == 0
    ensures Register < 0x8000_0000
    ensures Register == 765684845
  {
  }

  /** The LED `print_leds` shows in cell i: bit 31 - i, as 0 or 1. */
  function Led(leds: bv32, i: bv32): (b: bv32)
    requires i < 32
    ensures b == 0 || b == 1
  {
    (leds >> (31 - i)) & 1
  }

  /** The 32 cells of the display, most significant bit first. */
  function Display(leds: bv32): (cells: seq<bv32>)
    ensures |cells| == IntBits
    ensures BinConverter.IsBits(cells)
  {
    seq(IntBits, i requires 0 <= i < IntBits => Led(leds, i as bv32))
  }

  /**
   * Cell k of the display is lit exactly when the register has bit 31 - k
   * set, tested with a one-bit mask: the leftmost cell is the sign bit.
   */
  lemma DisplayCell(leds: bv32, k: bv32)
    requires k < 32
    ensures Display(leds)[k as int] == 1 <==> leds & (1 << (31 - k)) != 0
    ensures Display(leds)[k as int] == 0 <==> leds & (1 << (31 - k)) == 0
  {
    CellIsLed(leds, k);
    LedMask(leds, k);
  }

  /** Cell k of the comprehension is the LED `print_leds` computes for i = k. */
  lemma CellIsLed(leds: bv32, k: bv32)
    requires k < 32
    ensures Display(leds)[k as int] == Led(leds, k)
  {
  }

  /** The shift-and-mask of `print_leds` reads the bit a one-bit mask tests. */
  lemma LedMask(leds: bv32, k: bv32)
    requires k < 32
    ensures Led(leds, k) == 1 <==> leds & (1 << (31 - k)) != 0
  {
    MaskedBitSet(leds, 31 - k);
    ShiftedBitSet(leds, 31 - k);
  }

  /** A bit found set by the one-bit mask is 1 once shifted down to position 0. */
  lemma MaskedBitSet(leds: bv32, j: bv32)
    requires j < 32
    ensures leds & (1 << j) != 0 ==> (leds >> j) & 1 == 1
  {
  }

  /** A bit that is 1 once shifted down to position 0 is found set by the one-bit mask. */
  lemma ShiftedBitSet(leds: bv32, j: bv32)
    requires j < 32
    ensures (leds >> j) & 1 == 1 ==> leds & (1 << j) != 0
  {
  }

  /** The top k bits of `leds`, moved down to the bottom. */
  function TopBits(leds: bv32, k: bv32): bv32
    requires k <= 32
  {
    leds >> (32 - k)
  }

  /** Shifting one more cell into a reading of the top bits. */
  lemma ShiftInNext(cells: seq<bv32>, leds: bv32, n: nat, k: bv32)
    requires 0 < n <= |cells| && 0 < k <= 32
    requires BinConverter.ShiftIn(cells, n - 1) == TopBits(leds, k - 1)
    requires cells[n - 1] == Led(leds, k - 1)
    ensures BinConverter.ShiftIn(cells, n) == TopBits(leds, k)
  {
  }

  /**
   * The first n cells, read as a binary number, are the top n bits. The
   * count is given twice: `n` indexes the cells, `k` is the same count as
   * a bit-vector shift amount.
   */
  lemma {:induction false} DisplayPrefix(leds: bv32, n: nat, k: bv32)
    requires n <= 32 && k as int == n
    ensures BinConverter.ShiftIn(Display(leds), n) == TopBits(leds, k)
  {
    if n == 0 {
      NoTopBits(leds, k);
    } else {
      CountDown(n, k);
      DisplayPrefix(leds, n - 1, k - 1);
      DisplayStep(leds, n, k);
    }
  }

  /** The top zero bits read as zero. */
  lemma NoTopBits(leds: bv32, k: bv32)
    requires k as int == 0
    ensures TopBits(leds, k) == 0
  {
    assert k == 0;
  }

  /** Counting down a cell count and its bit-vector twin together. */
  lemma CountDown(n: nat, k: bv32)
    requires 0 < n <= 32 && k as int == n
    ensures (k - 1) as int == n - 1
  {
  }

  /** One more cell of the display extends the reading by the next bit down. */
  lemma DisplayStep(leds: bv32, n: nat, k: bv32)
    requires 0 < n <= 32 && k as int == n
    requires BinConverter.ShiftIn(Display(leds), n - 1) == TopBits(leds, k - 1)
    ensures BinConverter.ShiftIn(Display(leds), n) == TopBits(leds, k)
  {
    CellIsLed(leds, k - 1);
    ShiftInNext(Display(leds), leds, n, k);
  }

  /** The display loses nothing: reading its cells back gives the register. */
  lemma DisplayFaithful(leds: bv32)
    ensures BinConverter.ShiftIn(Display(leds), IntBits) == leds
  {
    DisplayPrefix(leds, 32, 32);
    assert TopBits(leds, 32) == leds;
  }

  /** The picture the source records for its register, dark cells as 1. */
  const Picture: seq<bv32> := [0, 0, 1, 0, 1, 1, 0, 1, 1, 0, 1, 0, 0, 0, 1, 1,
                               0, 1, 1, 0, 1, 1, 0, 0, 0, 1, 1, 0, 1, 1, 0, 1]

  /**
   * Every LED of the register, as the display shows it (`DisplayCell`), is
   * the cell of the recorded picture.
   */
  lemma RegisterPicture()
    ensures |Display(Register)| == |Picture|
    ensures forall k: bv32 :: k < 32 ==> Led(Register, k) == Picture[k as int]
  {
    RegisterLayout();
  }

  /** The frame `print_line` draws: a dash for every bit plus two, between corners. */
  function FrameLine(): (line: string)
    ensures |line| == IntBits + 4
    ensures line[0] == '+' && line[|line| - 1] == '+'
    ensures forall i :: 1 <= i < |line| - 1 ==> line[i] == '-'
  {
    "+" + seq(IntBits + 2, _ => '-') + "+"
  }
}

=== FILE: macros.dfy ===
/**
 * The age check of keyboard/macros.c: `CHECK_FAIL` exits on a negative
 * age, `MAKE_FLAG` declares two flags set to 0, and at most one of them is
 * raised before the warning is printed.
 */
module Macros {

  /** How `main` ends: an early failure exit, or the two flags and whether it warned. */
  datatype AgeOutcome =
    | ExitFailure
    | Done(flagUnderage: int, flagMenopause: int, warned: bool)

  /** `main` after reading `age`. */
  method ClassifyAge(age: int) returns (r: AgeOutcome)
    ensures r.ExitFailure? <==> age < 0
    ensures r.Done? ==> r.flagUnderage in {0, 1} && r.flagMenopause in {0, 1}
    ensures r.Done? ==> (r.flagUnderage == 1 <==> age < 18)
    ensures r.Done? ==> (r.flagMenopause == 1 <==> age > 51)
    ensures r.Done? ==> !(r.flagUnderage == 1 && r.flagMenopause == 1)
    ensures r.Done? ==> (r.warned <==> age < 18 || age > 51)
  {
    if age < 0 {
      return ExitFailure;
    }
    var flagMenopause := 0;
    var flagUnderage := 0;
    if age < 18 {
      flagUnderage := 1;
    } else if age > 51 {
      flagMenopause := 1;
    }
    var warned := flagMenopause != 0 || flagUnderage != 0;
    r := Done(flagUnderage, flagMenopause, warned);
  }
}

=== FILE: malloc2000.dfy ===
/**
 * The jagged matrix of part-1-basics/malloc2000.c: an index of N row
 * references, each row a separately allocated block of M ints.
 */
module Matrix {

  /**
   * `malloc_2000`: allocate the index, then one fresh row per index entry.
   * Row contents are left uninitialised, so nothing is promised about them.
   */
  method Malloc2000(n: nat, m: nat) returns (matrix: array<array<int>>)
    ensures fresh(matrix) && matrix.Length == n
    ensures forall k :: 0 <= k < n ==> fresh(matrix[k]) && matrix[k].Length == m
    ensures forall j, k :: 0 <= j < k < n ==> matrix[j] != matrix[k]
  {
    var placeholder := new int[0];
    matrix := new array<int>[n](_ => placeholder);
    var k := 0;
    while k < n
      invariant 0 <= k <= n
      invariant forall j :: 0 <= j < k ==> fresh(matrix[j]) && matrix[j].Length == m
      invariant forall i, j :: 0 <= i < j < k ==> matrix[i] != matrix[j]
    {
      var row := new int[m];
      matrix[k] := row;
      k := k + 1;
    }
  }

  /** Rows pairwise distinct: no two index entries share a block. */
  predicate RowsDistinct(rows: seq<array<int>>)
  {
    forall j, k :: 0 <= j < k < |rows| ==> rows[j] != rows[k]
  }

  /**
   * `free_2000`: release rows 0..N-1 in order, then the index. `free` has no
   * counterpart here, so the result is the order in which blocks are
   * released.
   */
  method Free2000(matrix: array<array<int>>, n: nat) returns (released: seq<object>)
    requires n <= matrix.Length
    ensures |released| == n + 1
    ensures forall k :: 0 <= k < n ==> released[k] == matrix[k]
    ensures released[n] == matrix
    ensures RowsDistinct(matrix[..n]) ==>
      forall i, j :: 0 <= i < j < |released| ==> released[i] != released[j]
  {
    released := [];
    var k := 0;
    while k < n
      invariant 0 <= k <= n
      invariant |released| == k
      invariant forall j :: 0 <= j < k ==> released[j] == matrix[j]
    {
      released := released + [matrix[k]];
      k := k + 1;
    }
    released := released + [matrix];
    if RowsDistinct(matrix[..n]) {
      forall i, j | 0 <= i < j < |released|
        ensures released[i] != released[j]
      {
        if j < n {
          assert matrix[..n][i] == matrix[i] && matrix[..n][j] == matrix[j];
        }
      }
    }
  }

  /**
   * `malloc_2000` then `free_2000`: the blocks released are exactly the
   * fresh matrix's rows, in order, then its index, each released once.
   */
  method AllocateThenFree(n: nat, m: nat) returns (matrix: array<array<int>>, released: seq<object>)
    ensures fresh(matrix) && matrix.Length == n
    ensures forall k :: 0 <= k < n ==> fresh(matrix[k]) && matrix[k].Length == m
    ensures |released| == n + 1
    ensures forall k :: 0 <= k < n ==> released[k] == matrix[k]
    ensures released[n] == matrix
    ensures forall i, j :: 0 <= i < j < |released| ==> released[i] != released[j]
  {
    matrix := Malloc2000(n, m);
    assert RowsDistinct(matrix[..n]);
    released := Free2000(matrix, n);
  }
}

=== FILE: one_byte.dfy ===
/**
 * The 1-byte test of part-2-bitwise/one_byte.c. `x & 0xff` on a 32-bit
 * two's-complement int keeps the low 8 bits of its pattern, which is the
 * pattern read as an unsigned number, modulo 256.
 */
module OneByte {
  import opened Int32

  /** `x & 0xff`. */
  function LowByte(x: int32): (b: int)
    ensures 0 <= b < 256
    ensures (Unsigned(x) - b) % 256 == 0
  {
    Unsigned(x) % 256
  }

  /**
   * `fits_in_1B` as written: masking with 0xff leaves the value unchanged.
   * It accepts exactly 0..255. A negative int never equals its low byte,
   * so every negative value fails: the FIXME the source records.
   */
  function FitsIn1B(x: int32): (r: bool)
    ensures r <==> 0 <= x <= 255
  {
    LowByte(x) == x
  }

  /** A byte pattern read as a signed char. */
  function SignExtend(b: int): (x: int)
    requires 0 <= b < 256
    ensures -128 <= x <= 127 && (b - x) % 256 == 0
  {
    if b < 128 then b else b - 256
  }

  /**
   * What the test was meant to accept, judging by the answers the program
   * expects: values that survive as one signed byte, so the low byte
   * sign-extended back gives the same value.
   */
  function FitsInSignedByte(x: int32): (r: bool)
  {
    SignExtend(LowByte(x)) == x
  }

  lemma FitsInSignedByteRange(x: int32)
    ensures FitsInSignedByte(x) <==> -128 <= x <= 127
  {
    if -128 <= x < 0 {
      assert LowByte(x) == x + 256;
    }
  }

  /**
   * The three cases `main` prints, whose labels expect y, n, y: the test as
   * written answers y, n, n; the intended test answers y, n, y. At the
   * boundary 255 fits and 256 does not.
   */
  lemma OneByteDemo()
    ensures FitsIn1B(42) && !FitsIn1B(481516) && !FitsIn1B(-42)
    ensures FitsInSignedByte(42) && !FitsInSignedByte(481516) && FitsInSignedByte(-42)
    ensures FitsIn1B(255) && !FitsIn1B(256)
  {
    FitsInSignedByteRange(42);
    FitsInSignedByteRange(481516);
    FitsInSignedByteRange(-42);
  }
}

=== FILE: results.dfy ===
/** Failure-carrying return values shared by the modules of this model. */
module Results {

  /** A value that may be absent. */
  datatype Option<+T> = None | Some(value: T)

  /** Either a computed value or the reason the computation stopped. */
  datatype Result<+R, +E> = Success(value: R) | Failure(error: E)
}

=== FILE: treasure.dfy ===
/**
 * The pass-by-value and pass-by-pointer demo of part-1-basics/treasure.c.
 * An int variable is a heap cell and `&treasure` is a reference to it, so
 * which callee may write the caller's variable is decided by its `modifies`
 * clause: a function without one leaves every cell as it was.
 */
module Treasure {

  /** An int variable in memory. */
  class Cell {
    var v: int

    constructor(v0: int)
      ensures v == v0
    {
      v := v0;
    }
  }

  /** `find_treasure(map)`: prints `*map`; it may read the pointee and writes nothing. */
  method FindTreasure(treasureMap: Cell) returns (printed: int)
    ensures printed == treasureMap.v
  {
    printed := treasureMap.v;
  }

  /**
   * `steal_treasure(treasure)`: the parameter is a copy in the callee's own
   * frame; zeroing it changes that copy and nothing the caller can see.
   */
  method StealTreasure(treasure: int) returns (printed: int)
    ensures printed == 0
  {
    var copy := treasure;
    copy := 0;
    printed := copy;
  }

  /** `steal_treasure_fr(map)`: writes 0 through the pointer and prints it. */
  method StealTreasureFr(treasureMap: Cell) returns (printed: int)
    modifies treasureMap
    ensures treasureMap.v == 0 && printed == 0
  {
    treasureMap.v := 0;
    printed := treasureMap.v;
  }

  /**
   * `main`: the finder, reading through the alias `map`, sees 42; the copy
   * thief prints 0 but leaves `treasure` at 42; the pointer thief, given
   * `&treasure`, prints 0 and leaves it at 0.
   */
  method TreasureStory() returns (found: int, copyPrinted: int, afterCopy: int, pointerPrinted: int, afterPointer: int)
    ensures found == 42
    ensures copyPrinted == 0 && afterCopy == 42
    ensures pointerPrinted == 0 && afterPointer == 0
  {
    var treasure := new Cell(42);
    var treasureMap := treasure;
    found := FindTreasure(treasureMap);
    copyPrinted := StealTreasure(treasure.v);
    afterCopy := treasure.v;
    pointerPrinted := StealTreasureFr(treasure);
    afterPointer := treasure.v;
  }
}
